=== FILE: README.md ===
# scope-bosh report plugin, modelled in Dafny

scope-bosh is a Weave Scope plugin that runs on a BOSH-deployed VM. On every
refresh tick it builds a fresh report in three steps. First it starts a shell
with a random id. Next it adds one host node whose `latest` map holds the job
descriptor (`spec.json`): job identity, templates, packages and networks.
Finally it replaces the node's `monit_processes_*` entries with what monit
reports for the `vcap` group. The report is published only when both sources
could be read; otherwise the error is recorded and the previous report stays.
The HTTP handler answers 500 with the recorded error, or encodes the report
together with the process-wide table templates.

The model covers:

- the report builder (`bosh/report.go`): modules `ReportKeys` and `BoshReport`;
- the plugin state and refresh loop (`bosh/plugin.go`): module `BoshPlugin`;
- the monit client's credentials parse and process conversion (`bosh/monit/client_notwindows.go`, `bosh/monit/process.go`): module `Monit`;
- the descriptor datatypes (`bosh/spec.go`): module `BoshSpec`.

Small support modules are `Wrappers` (Option/Result), `Strings` (prefix test,
first index, join), `Decimal` (`%d` / `strconv.Itoa` with its inverse `Atoi`),
and `Maps` (a sequence of map writes where the last write of a key wins).

Modelling choices:

- **Keys.** A `latest` key is a `Key` value: job field, template, package,
  network attribute or process. `Key.Render` is the Go string concatenation.
  `ReportKeys.RenderInjective` proves that distinct keys render to distinct
  strings. So a map over `Key` holds what the Go map over strings holds, and
  `ReportKeys.RenderMap` gives that string map back.
- **Map iteration order.** Go visits the package and network maps in an order
  the runtime picks. That order is a `RangeOrder` parameter. `ValidOrder` says
  it visits every key exactly once.
- **Outside inputs.** What a refresh learns from outside is a `Tick`: the
  random report id, the outcome of the descriptor load, the map visiting
  order and the outcome of the monit status query. The JSON encoder's outcome
  is a separate parameter of `Serve`.
- **Table templates.** The package-level `tableTemplates` map is shared by
  every report and grows as networks are registered. It is a field of the
  plugin `State`, and `Serve` attaches it when encoding.
- **Timestamps.** Each `latest` entry is its value only; the wall-clock
  timestamp is dropped.

Behaviour of the code worth knowing:

- Packages are a map whose entries are reported under the package's inner
  `name`. Two entries with the same inner name and different versions make
  the node depend on the map visiting order.
  `BoshReport.SpecLatestOrderIndependent` therefore requires
  `PackagesConsistent`; `BoshReport.DescribesSpec` holds for every order.
- A tick whose monit query fails has already written its networks into the
  shared table templates, and `Step` keeps that registration.
- The credentials file is split at the first `:` of its whole contents. The
  password keeps everything after it, a trailing newline included.
- Until a tick succeeds, the plugin holds the empty report `NewPlugin` made.
  The handler serves it only while no tick has failed; after a failing tick
  it answers 500 with that tick's error.

## Model

| member | source | states |
|---|---|---|
| Decimal.NatToString | bosh/report.go:72 | `%d` of a non-negative value is digits only, with no leading zero except for zero itself |
| Decimal.Itoa | bosh/report.go:88 | `strconv.Itoa` gives digits with no leading zero (except `"0"`) for a non-negative integer, and a minus sign before such digits, not starting with zero, for a negative one |
| Decimal.NatToStringRoundTrip | bosh/report.go:72 | reading the decimal digits of a non-negative id gives back the number |
| Decimal.ItoaRoundTrip | bosh/report.go:88 | `strconv.Itoa` output is an optional `-` and digits, and parsing it gives back the integer |
| Decimal.ItoaInjective | bosh/report.go:88 | distinct job indexes render to distinct `bosh_job_index` values |
| Strings.JoinShape | bosh/report.go:109 | `strings.Join` starts with the first part, ends with the last, and is as long as the parts plus one separator between neighbours |
| Strings.JoinSnoc | bosh/report.go:109 | appending a part to a non-empty join appends the separator and then that part, so `sep` lies between every pair of neighbours |
| Maps.Assign | bosh/report.go:93-99 | after a run of map writes, the keys are the old keys plus the written ones, and unwritten keys keep their values |
| Maps.AssignLastWrite | bosh/report.go:93-95 | a key holds the value of its last write in the run |
| Maps.WrittenValue | bosh/report.go:97-99 | a written key holds the value of one of its writes |
| Maps.AssignFunctional | bosh/report.go:101-104 | when all writes of a key carry the same value, the key holds that value regardless of order |
| Monit.ParseCredentials | bosh/monit/client_notwindows.go:89-94 | fails with the fixed message exactly when there is no `:`; otherwise user holds no `:` and `user:password` is the whole contents |
| Monit.ParseCredentialsRoundTrip | bosh/monit/client_notwindows.go:89-94 | a user without `:` and any password, joined by `:`, parse back to themselves |
| Monit.GetCredentials | bosh/monit/client_notwindows.go:83-95 | a read error is returned unchanged; contents without `:` fail with the fixed malformed-file message; otherwise the user and password split at the first `:` |
| Monit.NewClient | bosh/monit/client_notwindows.go:30-64 | fails exactly when the credentials do, with their error; else a client for 127.0.0.1:2822 with those credentials and retry budgets 20, 300 and 1 s |
| Monit.GetProcesses | bosh/monit/client_notwindows.go:66-81 | a failed status query is returned as its error; otherwise one process per service, same order, same name and status |
| ReportKeys.RenderShape | bosh/report.go:153-163 | every rendered key is longer than five; process keys have the process prefix, other keys start with `b` and carry their family letter at position 5 |
| ReportKeys.IsProcessKeyRendering | bosh/report.go:123-127 | the delete loop's prefix test holds exactly for process keys |
| ReportKeys.NetworkKeyInjective | bosh/report.go:102-109 | a network attribute key determines its network and attribute, although no separator is used |
| ReportKeys.NetworkIdInjective | bosh/report.go:102 | distinct networks get distinct table template ids |
| ReportKeys.RenderInjective | bosh/report.go:85-130 | no two node keys render to the same string |
| ReportKeys.RenderMap | bosh/report.go:54 | the string-keyed map has one entry per key, under its rendering, with the same value, and nothing else |
| BoshReport.LastTemplateExists | bosh/report.go:93-95 | every template name has a last template of that name |
| BoshReport.LastProcessExists | bosh/report.go:129-131 | every process name has a last process of that name |
| BoshReport.DescribesSpecDetermines | bosh/report.go:79-110 | two maps that both describe a descriptor with consistent package names agree outside the process family |
| BoshReport.DescribesProcessesDetermines | bosh/report.go:119-134 | two maps that both describe a process list agree on the process family |
| BoshReport.LatestDetermined | bosh/report.go:79-134 | with consistent package names, a descriptor and a process list fix the node's `latest` map completely |
| BoshReport.HostId | bosh/report.go:115-117 | the host node id is the hostname followed by `;<host>` |
| BoshReport.HostIdInjective | bosh/report.go:115-117 | distinct hostnames give distinct host node ids |
| BoshReport.NewReport | bosh/report.go:70-77 | the id is the decimal form of the random value, the bosh plugin is the only plugin, the host has no nodes and the fixed labels and shape |
| BoshReport.NewHost | bosh/report.go:136-144 | an empty host topology: no nodes, no metadata templates, labelled `host`/`hosts`, drawn as a circle |
| BoshReport.JobLatestHolds | bosh/report.go:85-90 | the initial node map holds exactly the four job entries, each with its descriptor value, the index in decimal |
| BoshReport.TemplateWriteKeys | bosh/report.go:93-95 | the template loop writes a key exactly for each template name |
| BoshReport.PackageWriteKeys | bosh/report.go:97-99 | the package loop writes a key exactly for each package name, in any visiting order |
| BoshReport.AssignNetwork | bosh/report.go:106-109 | one network adds exactly its four attribute keys with their values; nothing else changes |
| BoshReport.AssignNetworks | bosh/report.go:101-110 | the network loop adds the four keys of every visited network with its attributes; nothing else changes |
| BoshReport.BuildLatestKeys | bosh/report.go:79-110 | the built node holds exactly the descriptor's keys |
| BoshReport.BuildLatestTemplates | bosh/report.go:93-95 | a template name holds the version of its last template |
| BoshReport.BuildLatestPackages | bosh/report.go:97-99 | a package name holds the version of some package of that name |
| BoshReport.BuildLatestJob | bosh/report.go:85-90 | the job entries survive the later loops unchanged |
| BoshReport.BuildLatestDescribesSpec | bosh/report.go:79-110 | for every visiting order, the built map describes the descriptor and holds no process key |
| BoshReport.SpecLatest | bosh/report.go:82-110 | for any visiting order, the node map holds no process key and describes the descriptor |
| BoshReport.SpecLatestOrderIndependent | bosh/report.go:97-110 | with consistent package names, the built map does not depend on the visiting order |
| BoshReport.SetInstanceSpecData | bosh/report.go:79-113 | only the host node changes; it gets the host id, topology `host` and a map describing exactly the descriptor |
| BoshReport.RegisterNetworkTemplates | bosh/report.go:101-104 | the shared templates gain exactly one entry per network, labelled with its name; other entries are kept |
| BoshReport.NetworkIdNotStatic | bosh/report.go:165-170 | a network template id never overwrites one of the four static templates |
| BoshReport.RegisteredNetwork | bosh/report.go:102-104 | a network id already present in well-formed templates holds that network's template |
| BoshReport.TableTemplatesOnlyGrow | bosh/report.go:104 | registration keeps every existing entry and the static entries, and adds only network entries |
| BoshReport.RegisterNetworkTemplatesIdempotent | bosh/report.go:101-104 | registering the same descriptor's networks again, in any order, changes nothing |
| BoshReport.WithoutProcesses | bosh/report.go:123-127 | the delete loop removes exactly the keys with the process prefix and keeps the values of the rest |
| BoshReport.ProcessWritesDescribe | bosh/report.go:129-131 | writing the processes into a map without process keys gives one key per process name with the status of its last process |
| BoshReport.ReplaceProcesses | bosh/report.go:123-131 | delete-then-write describes exactly the new processes and leaves every other key as it was |
| BoshReport.SetMonitProcesses | bosh/report.go:119-134 | only the host node changes; its process family is exactly the given processes, with id, topology and other keys kept |
| BoshReport.WithoutProcessesAfterWrites | bosh/report.go:123-131 | writing processes does not change anything outside the process family |
| BoshReport.SetMonitProcessesReplaces | bosh/report.go:119-134 | setting processes twice equals setting only the second list: processes dropped from the list lose their key |
| BoshPlugin.NewPlugin | bosh/plugin.go:23-35 | a fresh plugin holds exactly `newReport(hostname)` for the random id, no error, and exactly the four static table templates |
| BoshPlugin.SetReport | bosh/plugin.go:61-66 | publishing a report clears the error |
| BoshPlugin.SetErr | bosh/plugin.go:75-79 | recording an error keeps the held report |
| BoshPlugin.ReadsSeeLastWrite | bosh/plugin.go:54-79 | `getReport` and `getErr` read what the last `setReport`/`setErr` stored: an error after a report keeps that report, a report after an error clears it |
| BoshPlugin.BuiltNode | bosh/plugin.go:93-101 | the descriptor write then the process write leave one node, describing both, and keep the host topology's labels, shape and metadata templates |
| BoshPlugin.BuildReport | bosh/plugin.go:86-104 | a successful tick's report has its id in canonical decimal, the bosh plugin, the host topology labelled `host`/`hosts` and drawn as a circle with no metadata templates, and exactly the host node, describing the descriptor and the processes |
| BoshPlugin.Step | bosh/plugin.go:85-104 | a failing tick records the descriptor's error, else the query's, and keeps the report; a successful one publishes its report and clears the error; the shared templates are re-registered from the descriptor's networks when it loaded, and untouched otherwise |
| BoshPlugin.Run | bosh/plugin.go:82-109 | the loop keeps the host name, and its error afterwards is the last tick's, or none when that tick succeeded |
| BoshPlugin.LastSuccess | bosh/plugin.go:83-107 | the index of the last tick that had both sources, or none |
| BoshPlugin.RunKeepsBuiltReport | bosh/plugin.go:88-99 | failing ticks after a successful one leave its report in place |
| BoshPlugin.RunKeepsInitialReport | bosh/plugin.go:88-99 | with no successful tick, the initial report is still held (the handler serves it only while no tick has failed) |
| BoshPlugin.RunServesLastSuccess | bosh/plugin.go:81-110 | after any run, the held report is that of the last successful tick, or the initial one |
| BoshPlugin.RunTemplatesGrow | bosh/plugin.go:83-107 | the shared table templates stay well formed and only grow over a run |
| BoshPlugin.Serve | bosh/plugin.go:37-48 | answers 500 exactly when an error is recorded or encoding fails, with that message; otherwise the held report and current templates |
| BoshPlugin.ServeAfterTick | bosh/plugin.go:37-48 | after a failing tick the handler answers 500 with its error; after a successful one it serves that tick's report |

## Left out

- `main.go` (flags, listener, signal handling) is not part of this model.
- `loadSpec` (bosh/spec.go:40-53) opens and JSON-decodes the descriptor; only its outcome is modelled, as the `Result<Spec>` of a tick.
- The monit HTTP client, its two retry wrappers, `Status()` and `ServicesInGroup` are foreign code; `GetProcesses` takes the group's services, or the query's error, as a parameter.
- Reading the credentials file is I/O; `GetCredentials` and `NewClient` take the read's outcome as a parameter.
- The lock, the goroutine, the timer, `Close` and the `done` channel are concurrency; a refresh is one `Step`, a run of the loop is `Run`.
- The unlocked write of the shared table templates racing with the handler's encoding is concurrency and is not modelled.
- JSON encoding is not modelled; its outcome is a parameter of `Serve`. `Serve` answers 500 on an encoding failure, as the handler asks. A client sees that 500 only when encoding fails before anything is written: once the encoder has written to the response, the 200 status is already sent and the later 500 is ignored.
- Timestamps (`time.Now()`) in `latest` entries are wall-clock values and are dropped.
- `rand.Int63()` is a parameter bounded by 2^63 - 1.
- Logging (`log.Printf`) has no effect on state.
- The distinction between a nil and an empty Go map (which encode as `null` and `{}`) is not modelled: the host's metadata templates are an empty map.
- `Spec.index` is an unbounded integer; Go's `int` width is not modelled.
- BoshReport.SetMonitProcesses: when the host node is missing, Go writes into a nil map and panics unless the process list is empty; the model requires the node or an empty list.
- BoshReport.BuildLatestPackages: states that a package name holds some package's version of that name, not which one, because that depends on the runtime's map order.
- BoshReport.SpecLatestOrderIndependent: requires packages sharing a name to share a version, since otherwise the visiting order decides the value.

=== FILE: boshspec.dfy ===
/**
 The shape of the BOSH job descriptor (the decoded `spec.json`) the report is
 built from, and the iteration order Go's `range` picks over its two maps.
 */
module BoshSpec {

  datatype Template = Template(name: string, version: string)

  datatype Job = Job(name: string, templates: seq<Template>)

  datatype Pkg = Pkg(name: string, version: string)

  datatype Network = Network(
    cloudProperties: map<string, string>,
    defaults: seq<string>,
    gateway: string,
    ip: string,
    netmask: string)

  datatype Spec = Spec(
    job: Job,
    packages: map<string, Pkg>,
    networks: map<string, Network>,
    deployment: string,
    id: string,
    index: int)

  /** One pass of `range` over a map: every key exactly once, in an order the runtime chooses. */
  ghost predicate Enumerates(order: seq<string>, keys: set<string>) {
    && (forall i, j :: 0 <= i < j < |order| ==> order[i] != order[j])
    && (forall k :: k in order <==> k in keys)
  }

  /** The orders in which one build visits the packages and the networks of a descriptor. */
  datatype RangeOrder = RangeOrder(packages: seq<string>, networks: seq<string>)

  ghost predicate ValidOrder(spec: Spec, order: RangeOrder) {
    Enumerates(order.packages, spec.packages.Keys) && Enumerates(order.networks, spec.networks.Keys)
  }

  /**
   Packages are keyed in the report by their inner name, which two entries of
   the package map may share; when all packages sharing a name share a version
   too, the visiting order cannot change what the report says.
   */
  ghost predicate PackagesConsistent(spec: Spec) {
    forall a, b :: a in spec.packages && b in spec.packages && spec.packages[a].name == spec.packages[b].name ==>
      spec.packages[a].version == spec.packages[b].version
  }
}

=== FILE: decimal.dfy ===
/** Decimal rendering of integers, as `strconv.Itoa` and `fmt.Sprintf("%d", _)` produce it. */
module Decimal {

  predicate IsDigit(c: char) {
    '0' <= c <= '9'
  }

  predicate IsDigits(s: string) {
    |s| > 0 && forall i :: 0 <= i < |s| ==> IsDigit(s[i])
  }

  function DigitChar(d: nat): (c: char)
    requires d < 10
    ensures IsDigit(c)
  {
    (48 + d) as char
  }

  function DigitValue(c: char): (d: nat)
    requires IsDigit(c)
    ensures d < 10
  {
    c as int - 48
  }

  /** The shortest decimal numeral of `n`: digits only, no leading zero. */
  function NatToString(n: nat): (s: string)
    ensures IsDigits(s)
    ensures s[0] == '0' ==> n == 0 && s == "0"
    decreases n
  {
    if n < 10 then [DigitChar(n)] else NatToString(n / 10) + [DigitChar(n % 10)]
  }

  /** `strconv.Itoa`: a minus sign before the magnitude of a negative number. */
  function Itoa(i: int): (s: string)
    ensures i >= 0 ==> IsDigits(s) && (s[0] == '0' ==> s == "0")
    ensures i < 0 ==> |s| > 1 && s[0] == '-' && IsDigits(s[1..]) && s[1] != '0'
  {
    if i < 0 then "-" + NatToString(-i) else NatToString(i)
  }

  /** The value of a numeral, read most significant digit first. */
  function DigitsValue(s: string): nat
    requires forall i :: 0 <= i < |s| ==> IsDigit(s[i])
    decreases |s|
  {
    if |s| == 0 then 0 else 10 * DigitsValue(s[..|s| - 1]) + DigitValue(s[|s| - 1])
  }

  /** The reading of a numeral with an optional leading minus, the inverse `strconv.Atoi` provides. */
  function Atoi(s: string): int
    requires IsDigits(s) || (|s| > 1 && s[0] == '-' && IsDigits(s[1..]))
  {
    if s[0] == '-' then -(DigitsValue(s[1..]) as int) else DigitsValue(s)
  }

  lemma {:induction false} NatToStringRoundTrip(n: nat)
    ensures DigitsValue(NatToString(n)) == n
    decreases n
  {
    if n >= 10 {
      var s := NatToString(n);
      assert s[..|s| - 1] == NatToString(n / 10);
      NatToStringRoundTrip(n / 10);
    }
  }

  /** Reading back what `Itoa` wrote gives the number again, for every integer. */
  lemma ItoaRoundTrip(i: int)
    ensures IsDigits(Itoa(i)) || (Itoa(i)[0] == '-' && |Itoa(i)| > 1 && IsDigits(Itoa(i)[1..]))
    ensures Atoi(Itoa(i)) == i
  {
    if i < 0 {
      assert Itoa(i)[1..] == NatToString(-i);
      NatToStringRoundTrip(-i);
    } else {
      NatToStringRoundTrip(i);
    }
  }

  /** Distinct integers are rendered differently. */
  lemma ItoaInjective(i: int, j: int)
    requires Itoa(i) == Itoa(j)
    ensures i == j
  {
    ItoaRoundTrip(i);
    ItoaRoundTrip(j);
  }
}

=== FILE: keys.dfy ===
/**
 The keys of the host node's `latest` map. Go builds each key by string
 concatenation; here a key is the value it is built from, and `Render` is the
 concatenation. `RenderInjective` shows that no two keys render alike, so a map
 over `Key` holds exactly what the Go map over the rendered strings holds.
 */
module ReportKeys {
  import opened Strings
  import opened Decimal
  import opened BoshSpec

  const BoshJobPrefix := "bosh_job_"
  const BoshTemplatesPrefix := "bosh_templates_"
  const BoshPackagesPrefix := "bosh_packages_"
  const BoshNetworksPrefix := "bosh_networks_"
  const BoshJobName := "bosh_job_name"
  const BoshJobID := "bosh_job_id"
  const BoshJobIndex := "bosh_job_index"
  const BoshJobDeployment := "bosh_job_deployment"
  const MonitProcessesPrefix := "monit_processes_"

  /** The four job identity entries. */
  datatype JobField = Id | Name | Index | Deployment {

    function KeyName(): string {
      match this
      case Id => BoshJobID
      case Name => BoshJobName
      case Index => BoshJobIndex
      case Deployment => BoshJobDeployment
    }

    /** The descriptor value the entry holds; the index is written in decimal. */
    function ValueOf(spec: Spec): string {
      match this
      case Id => spec.id
      case Name => spec.job.name
      case Index => Itoa(spec.index)
      case Deployment => spec.deployment
    }
  }

  /** The four attributes a network contributes, in the order they are written. */
  datatype NetworkField = IP | Gateway | Netmask | Default {

    function Suffix(): string {
      match this
      case IP => "ip"
      case Gateway => "gateway"
      case Netmask => "netmask"
      case Default => "default"
    }

    /** The network's attribute; the default routes are joined by ", ". */
    function ValueOf(n: Network): string {
      match this
      case IP => n.ip
      case Gateway => n.gateway
      case Netmask => n.netmask
      case Default => Join(n.defaults, ", ")
    }
  }

  /** The table template id of a network, and the common prefix of its four keys. */
  function NetworkId(name: string): string {
    BoshNetworksPrefix + name
  }

  datatype Key =
    | JobKey(job: JobField)
    | TemplateKey(template: string)
    | PackageKey(pkg: string)
    | NetworkKey(network: string, field: NetworkField)
    | ProcessKey(process: string)
  {
    /** The string Go uses as the map key. The network field is appended with no separator. */
    function Render(): string {
      match this
      case JobKey(f) => f.KeyName()
      case TemplateKey(name) => BoshTemplatesPrefix + name
      case PackageKey(name) => BoshPackagesPrefix + name
      case NetworkKey(name, f) => NetworkId(name) + f.Suffix()
      case ProcessKey(name) => MonitProcessesPrefix + name
    }

    /** The sixth character of every `bosh_` key, which tells the families apart. */
    function Tag(): char {
      match this
      case JobKey(_) => 'j'
      case TemplateKey(_) => 't'
      case PackageKey(_) => 'p'
      case NetworkKey(_, _) => 'n'
      case ProcessKey(_) => 'o'
    }
  }

  /**
   A rendered key starts with `bosh_` and carries its family's tag, except a
   process key, which starts with the process prefix.
   */
  lemma RenderShape(k: Key)
    ensures |k.Render()| > 5
    ensures k.ProcessKey? ==> HasPrefix(k.Render(), MonitProcessesPrefix)
    ensures !k.ProcessKey? ==> k.Render()[0] == 'b' && k.Render()[5] == k.Tag()
  {
  }

  /** `strings.HasPrefix(key, MonitProcessesPrefix)` holds exactly for the process keys. */
  lemma IsProcessKeyRendering(k: Key)
    ensures HasPrefix(k.Render(), MonitProcessesPrefix) <==> k.ProcessKey?
  {
    RenderShape(k);
    if !k.ProcessKey? && HasPrefix(k.Render(), MonitProcessesPrefix) {
      assert false;
    }
  }

  /** The network suffixes end in four different letters, so a network key names its network and field. */
  lemma NetworkKeyInjective(a: string, f: NetworkField, b: string, g: NetworkField)
    requires NetworkKey(a, f).Render() == NetworkKey(b, g).Render()
    ensures a == b && f == g
  {
    var s := NetworkKey(a, f).Render();
    assert s[|s| - 1] == f.Suffix()[|f.Suffix()| - 1];
    assert s[|s| - 1] == g.Suffix()[|g.Suffix()| - 1];
    assert f == g;
    assert NetworkId(a) == s[..|s| - |f.Suffix()|] == NetworkId(b);
    PrefixCancel(BoshNetworksPrefix, a, b);
  }

  lemma NetworkIdInjective(a: string, b: string)
    requires NetworkId(a) == NetworkId(b)
    ensures a == b
  {
    PrefixCancel(BoshNetworksPrefix, a, b);
  }

  /** Distinct keys render to distinct strings. */
  lemma RenderInjective(a: Key, b: Key)
    requires a.Render() == b.Render()
    ensures a == b
  {
    RenderShape(a);
    RenderShape(b);
    if a.ProcessKey? != b.ProcessKey? {
      IsProcessKeyRendering(a);
      IsProcessKeyRendering(b);
      assert false;
    }
    assert a.Tag() == b.Tag();
    match a
    case JobKey(f) =>
      assert |f.KeyName()| == |b.job.KeyName()|;
    case TemplateKey(x) =>
      PrefixCancel(BoshTemplatesPrefix, x, b.template);
    case PackageKey(x) =>
      PrefixCancel(BoshPackagesPrefix, x, b.pkg);
    case NetworkKey(x, f) =>
      NetworkKeyInjective(x, f, b.network, b.field);
    case ProcessKey(x) =>
      PrefixCancel(MonitProcessesPrefix, x, b.process);
  }

  lemma RenderingIsInjective()
    ensures forall a: Key, b: Key :: a.Render() == b.Render() ==> a == b
  {
    forall a: Key, b: Key | a.Render() == b.Render() ensures a == b {
      RenderInjective(a, b);
    }
  }

  /** The keys of one network are its four attribute keys. */
  lemma NetworkKeysOf(name: string)
    ensures forall k: Key :: k.NetworkKey? && k.network == name ==>
      || k == NetworkKey(name, IP) || k == NetworkKey(name, Gateway)
      || k == NetworkKey(name, Netmask) || k == NetworkKey(name, Default)
  {
    forall k: Key | k.NetworkKey? && k.network == name
      ensures k == NetworkKey(name, IP) || k == NetworkKey(name, Gateway)
           || k == NetworkKey(name, Netmask) || k == NetworkKey(name, Default)
    {
      match k.field
      case IP =>
      case Gateway =>
      case Netmask =>
      case Default =>
    }
  }

  /** A network's table template id is neither a static template id nor any node key. */
  lemma NetworkIdShape(name: string)
    ensures |NetworkId(name)| > 5 && NetworkId(name)[0] == 'b' && NetworkId(name)[5] == 'n'
  {
  }

  /** The map Go serialises: each entry under its rendered key. */
  function RenderMap<V>(m: map<Key, V>): (r: map<string, V>)
    ensures forall k :: k in m <==> k.Render() in r
    ensures forall k :: k in m ==> r[k.Render()] == m[k]
    ensures forall s :: s in r ==> exists k :: k in m && k.Render() == s
  {
    RenderingIsInjective();
    map k | k in m :: k.Render() := m[k]
  }
}

=== FILE: maps.dfy ===
/**
 Sequential writes into a map, the effect of a Go loop that assigns `m[k] = v`
 once per element: every written key ends up present, and a key written more
 than once holds the value of its last write.
 */
module Maps {

  /** The keys written by a sequence of `(key, value)` writes. */
  function Keys<K, V>(writes: seq<(K, V)>): set<K> {
    set i | 0 <= i < |writes| :: writes[i].0
  }

  /** Write `i` is the last one to its key. */
  ghost predicate IsLast<K, V>(writes: seq<(K, V)>, i: int)
    requires 0 <= i < |writes|
  {
    forall j :: i < j < |writes| ==> writes[j].0 != writes[i].0
  }

  /** All writes to one key carry the same value, so their order does not matter. */
  ghost predicate Functional<K, V>(writes: seq<(K, V)>) {
    forall i, j :: 0 <= i < |writes| && 0 <= j < |writes| && writes[i].0 == writes[j].0 ==> writes[i].1 == writes[j].1
  }

  /**
   `m` after performing `writes` in order: the written keys are added and every
   other key keeps its value. What a written key holds is `AssignLastWrite`.
   */
  function Assign<K, V>(m: map<K, V>, writes: seq<(K, V)>): (r: map<K, V>)
    ensures r.Keys == m.Keys + Keys(writes)
    ensures forall k :: k in m && k !in Keys(writes) ==> r[k] == m[k]
    decreases |writes|
  {
    if |writes| == 0 then m
    else
      var prev := Assign(m, writes[..|writes| - 1]);
      KeysSnoc(writes);
      prev[writes[|writes| - 1].0 := writes[|writes| - 1].1]
  }

  /** A written key holds the value of its last write. */
  lemma {:induction false} AssignLastWrite<K, V>(m: map<K, V>, writes: seq<(K, V)>, i: int)
    requires 0 <= i < |writes| && IsLast(writes, i)
    ensures writes[i].0 in Assign(m, writes) && Assign(m, writes)[writes[i].0] == writes[i].1
    decreases |writes|
  {
    var n := |writes| - 1;
    if i < n {
      var front := writes[..n];
      LastWriteStep(writes);
      assert front[i] == writes[i];
      AssignLastWrite(m, front, i);
    }
  }

  /** A write that is last in `writes` is either the final one or last among the earlier ones, to another key. */
  lemma LastWriteStep<K, V>(writes: seq<(K, V)>)
    requires |writes| > 0
    ensures forall i :: 0 <= i < |writes| - 1 && IsLast(writes, i) ==>
      writes[i].0 != writes[|writes| - 1].0 && IsLast(writes[..|writes| - 1], i)
  {
  }

  lemma KeysSnoc<K, V>(writes: seq<(K, V)>)
    requires |writes| > 0
    ensures Keys(writes) == Keys(writes[..|writes| - 1]) + {writes[|writes| - 1].0}
  {
  }

  /** Every written key has a last write. */
  lemma {:induction false} LastWriteExists<K, V>(writes: seq<(K, V)>, k: K)
    requires k in Keys(writes)
    ensures exists i :: 0 <= i < |writes| && writes[i].0 == k && IsLast(writes, i)
    decreases |writes|
  {
    var n := |writes| - 1;
    if writes[n].0 != k {
      var front := writes[..n];
      var i0 :| 0 <= i0 < |writes| && writes[i0].0 == k;
      assert front[i0] == writes[i0];
      LastWriteExists(front, k);
      var i :| 0 <= i < |front| && front[i].0 == k && IsLast(front, i);
      assert writes[i] == front[i];
      assert IsLast(writes, i) by {
        forall j | i < j < |writes| ensures writes[j].0 != writes[i].0 {
          if j < n {
            assert front[j] == writes[j];
          }
        }
      }
    }
  }

  /** Every written key holds the value of one of its writes, whatever their order. */
  lemma WrittenValue<K, V>(m: map<K, V>, writes: seq<(K, V)>, k: K)
    requires k in Keys(writes)
    ensures exists i :: 0 <= i < |writes| && writes[i].0 == k && Assign(m, writes)[k] == writes[i].1
  {
    LastWriteExists(writes, k);
    var i :| 0 <= i < |writes| && writes[i].0 == k && IsLast(writes, i);
    AssignLastWrite(m, writes, i);
  }

  /** When the writes are functional, each key holds the value every one of its writes carries. */
  lemma AssignFunctional<K, V>(m: map<K, V>, writes: seq<(K, V)>)
    requires Functional(writes)
    ensures forall i :: 0 <= i < |writes| ==> Assign(m, writes)[writes[i].0] == writes[i].1
  {
  }
}

=== FILE: monit.dfy ===
/**
 The monit side of the plugin: the `(name, status)` process records the report
 is built from, the parse of the monit credentials file, and the conversion of
 the services monit reports for the job group into processes.
 The HTTP client, its retry policies and the `Status()` call are foreign code:
 their outcome enters as a parameter.
 */
module Monit {
  import opened Wrappers
  import opened Strings

  const ShortRetryStrategyAttempts: nat := 20
  const LongRetryStrategyAttempts: nat := 300
  const RetryDelaySeconds: nat := 1
  const MonitHost := "127.0.0.1:2822"
  const Group := "vcap"
  const CredentialsFile := "/var/vcap/monit/monit.user"

  /** The error a credentials file without a separator produces (the misspelling is the program's). */
  const MalformedCredentials := Error("Malformatted monit user file, expecting username and passsword separated by ':'")

  /** One supervised process as the report sees it. */
  datatype Process = Process(name: string, status: string)

  /** One service of the monit status document, as `ServicesInGroup` returns it. */
  datatype Service = Service(name: string, status: string)

  datatype Credentials = Credentials(user: string, password: string)

  /** What a constructed client holds: endpoint, credentials and the retry budgets of its two HTTP clients. */
  datatype Client = Client(
    host: string,
    user: string,
    password: string,
    shortRetryAttempts: nat,
    longRetryAttempts: nat,
    retryDelaySeconds: nat)

  /**
   Splitting the credentials file contents at the first ':'. Contents without a
   ':' (the empty file included) are malformed; the password keeps any later ':'
   and any trailing newline.
   */
  function ParseCredentials(contents: string): (r: Result<Credentials>)
    ensures r.Failure? <==> ':' !in contents
    ensures r.Failure? ==> r.error == MalformedCredentials
    ensures r.Success? ==> ':' !in r.value.user
    ensures r.Success? ==> r.value.user + ":" + r.value.password == contents
  {
    match IndexOf(contents, ':')
    case None => Failure(MalformedCredentials)
    case Some(i) =>
      assert contents == contents[..i] + ":" + contents[i + 1..];
      Success(Credentials(contents[..i], contents[i + 1..]))
  }

  /** Writing a user without ':' and any password as `user:password` and parsing it gives them back. */
  lemma ParseCredentialsRoundTrip(user: string, password: string)
    requires ':' !in user
    ensures ParseCredentials(user + ":" + password) == Success(Credentials(user, password))
  {
    var contents := user + ":" + password;
    assert contents[|user|] == ':';
    var u := ParseCredentials(contents).value.user;
    assert |u| == |user| by {
      if |u| < |user| {
        assert false;
      } else if |u| > |user| {
        assert false;
      }
    }
    assert u == contents[..|user|] == user;
    assert contents[|user| + 1..] == password;
  }

  /**
   `getCredentials`: the outcome of reading `CredentialsFile`, then its parse.
   A read error is returned as it is.
   */
  function GetCredentials(file: Result<string>): (r: Result<Credentials>)
    ensures file.Failure? ==> r == Failure(file.error)
    ensures file.Success? && ':' !in file.value ==> r == Failure(MalformedCredentials)
    ensures r.Failure? <==> file.Failure? || ':' !in file.value
    ensures r.Success? ==> r.value.user + ":" + r.value.password == file.value && ':' !in r.value.user
  {
    match file
    case Failure(e) => Failure(e)
    case Success(contents) => ParseCredentials(contents)
  }

  /**
   `NewClient`: fails exactly when the credentials cannot be had, with their
   error; otherwise a client for the fixed local endpoint with those credentials.
   */
  function NewClient(file: Result<string>): (r: Result<Client>)
    ensures r.Failure? <==> GetCredentials(file).Failure?
    ensures r.Failure? ==> r.error == GetCredentials(file).error
    ensures r.Success? ==>
              && r.value.host == MonitHost
              && r.value.user + ":" + r.value.password == file.value
              && ':' !in r.value.user
    ensures r.Success? ==>
              && r.value.shortRetryAttempts == 20
              && r.value.longRetryAttempts == 300
              && r.value.retryDelaySeconds == 1
  {
    match GetCredentials(file)
    case Failure(e) => Failure(e)
    case Success(c) =>
      Success(Client(MonitHost, c.user, c.password,
                     ShortRetryStrategyAttempts, LongRetryStrategyAttempts, RetryDelaySeconds))
  }

  /**
   `GetProcesses`: given the outcome of the status query, restricted to the
   services of `Group`, one process per service in the same order, or the
   query's error and no processes.
   */
  function GetProcesses(status: Result<seq<Service>>): (r: Result<seq<Process>>)
    ensures status.Failure? ==> r == Failure(status.error)
    ensures status.Success? ==> r.Success? && |r.value| == |status.value|
    ensures status.Success? ==> forall i :: 0 <= i < |r.value| ==>
      r.value[i].name == status.value[i].name && r.value[i].status == status.value[i].status
  {
    match status
    case Failure(e) => Failure(e)
    case Success(services) =>
      Success(seq(|services|, i requires 0 <= i < |services| => Process(services[i].name, services[i].status)))
  }
}

=== FILE: plugin.dfy ===
/**
 The plugin: the report it holds, the error of its last refresh, and the
 refresh loop that rebuilds the report on every tick. The shared table
 templates live here too, since every report of the process points at the one
 map that the refreshes extend.

 The lock, the goroutine and the timer are not modelled: each refresh is one
 `Step`, and a run of the loop is `Run` over the outcomes of its ticks. What a
 tick learns from the outside world (the random report id, the descriptor
 read, the order Go visits its maps in, the monit status query) is a `Tick`.
 */
module BoshPlugin {
  import opened Wrappers
  import opened Decimal
  import opened BoshSpec
  import opened Monit
  import opened ReportKeys
  import opened BoshReport

  datatype State = State(hostname: string, report: Report, err: Option<Error>, tableTemplates: TableTemplates)

  /** `NewPlugin`: the empty report of a fresh id, no error, and the static table templates. */
  function NewPlugin(hostname: string, randomId: nat): (s: State)
    requires randomId <= MaxInt63
    ensures s.hostname == hostname && s.report.hostname == hostname
    ensures IsDigits(s.report.id) && Atoi(s.report.id) == randomId
    ensures s.report.host.nodes == map[]
    ensures GetErr(s).None?
    ensures WellFormedTemplates(s.tableTemplates)
    ensures GetReport(s) == NewReport(hostname, randomId)
    ensures s.tableTemplates == StaticTableTemplates
  {
    State(hostname, NewReport(hostname, randomId), None, StaticTableTemplates)
  }

  function GetReport(s: State): Report {
    s.report
  }

  function GetErr(s: State): Option<Error> {
    s.err
  }

  /** `setReport`: publishes a report and clears the error. */
  function SetReport(s: State, r: Report): (s': State)
    ensures GetReport(s') == r && GetErr(s').None?
    ensures s'.hostname == s.hostname && s'.tableTemplates == s.tableTemplates
  {
    s.(report := r, err := None)
  }

  /** `setErr`: records an error and keeps the report it had. */
  function SetErr(s: State, e: Error): (s': State)
    ensures GetErr(s') == Some(e) && GetReport(s') == GetReport(s)
    ensures s'.hostname == s.hostname && s'.tableTemplates == s.tableTemplates
  {
    s.(err := Some(e))
  }

  /**
   The accessors see the last write: an error recorded after a report leaves
   that report readable, and a report published after an error clears it.
   */
  lemma ReadsSeeLastWrite(s: State, r: Report, e: Error)
    ensures GetReport(SetErr(SetReport(s, r), e)) == r && GetErr(SetErr(SetReport(s, r), e)) == Some(e)
    ensures GetReport(SetReport(SetErr(s, e), r)) == r && GetErr(SetReport(SetErr(s, e), r)).None?
  {
  }

  /** What one tick of the refresh loop learns from outside. */
  datatype Tick = Tick(randomId: nat, spec: Result<Spec>, order: RangeOrder, status: Result<seq<Service>>)

  /** A random id is a non-negative 63-bit value and Go visits each map key once. */
  ghost predicate ValidTick(t: Tick) {
    t.randomId <= MaxInt63 && (t.spec.Success? ==> ValidOrder(t.spec.value, t.order))
  }

  /** Both the descriptor and the process list could be had. */
  predicate Succeeds(t: Tick) {
    t.spec.Success? && t.status.Success?
  }

  /** The error a failing tick records: the descriptor's if it failed, else the status query's. */
  function TickError(t: Tick): Error
    requires !Succeeds(t)
  {
    if t.spec.Failure? then t.spec.error else t.status.error
  }

  /** The node of the host in a report, or a zero node. */
  function HostNode(r: Report): Node {
    if HostId(r.hostname) in r.host.nodes then r.host.nodes[HostId(r.hostname)] else Node("", "", map[])
  }

  /**
   The report a successful tick publishes: the fresh id, the bosh plugin, the
   host topology's fixed labels and shape, and exactly one node, the host's,
   describing the descriptor and the processes.
   */
  ghost predicate Publishes(r: Report, hostname: string, t: Tick) {
    && t.spec.Success? && t.status.Success?
    && r.hostname == hostname
    && IsDigits(r.id) && Atoi(r.id) == t.randomId && (r.id[0] == '0' ==> r.id == "0")
    && r.plugins == [PluginInfo]
    && r.host.displayLabel == "host" && r.host.displayLabelPlural == "hosts" && r.host.shape == "circle"
    && r.host.metadataTemplates == map[]
    && r.host.nodes.Keys == {HostId(hostname)}
    && HostNode(r).id == HostId(hostname)
    && HostNode(r).topology == "host"
    && DescribesSpec(HostNode(r).latest, t.spec.value)
    && DescribesProcesses(HostNode(r).latest, GetProcesses(t.status).value)
  }

  /** What the descriptor and the process writes leave in a report that had no nodes. */
  lemma BuiltNode(r0: Report, r1: Report, r2: Report, spec: Spec, ps: seq<Process>)
    requires r0.host.nodes == map[]
    requires OnlyHostNodeChanged(r0, r1) && OnlyHostNodeChanged(r1, r2)
    requires var id := HostId(r0.hostname);
      && r1.host.nodes[id].id == id && r1.host.nodes[id].topology == "host"
      && DescribesSpec(r1.host.nodes[id].latest, spec)
    requires var id := HostId(r0.hostname);
      && r2.host.nodes[id].id == r1.host.nodes[id].id && r2.host.nodes[id].topology == r1.host.nodes[id].topology
      && SameOutsideProcesses(r1.host.nodes[id].latest, r2.host.nodes[id].latest)
      && DescribesProcesses(r2.host.nodes[id].latest, ps)
    ensures r2.hostname == r0.hostname && r2.id == r0.id && r2.plugins == r0.plugins
    ensures r2.host == r0.host.(nodes := r2.host.nodes)
    ensures r2.host.nodes.Keys == {HostId(r0.hostname)}
    ensures HostNode(r2).id == HostId(r0.hostname) && HostNode(r2).topology == "host"
    ensures DescribesSpec(HostNode(r2).latest, spec) && DescribesProcesses(HostNode(r2).latest, ps)
  {
  }

  /** The three report calls of a successful tick: a new report, the descriptor, then the processes. */
  function BuildReport(hostname: string, t: Tick): (r: Report)
    requires ValidTick(t) && Succeeds(t)
    ensures Publishes(r, hostname, t)
  {
    var spec := t.spec.value;
    var ps := GetProcesses(t.status).value;
    var r0 := NewReport(hostname, t.randomId);
    var r1 := SetInstanceSpecData(r0, spec, t.order);
    var r2 := SetMonitProcesses(r1, ps);
    BuiltNode(r0, r1, r2, spec, ps);
    r2
  }

  /**
   One pass of `refreshReport`. A descriptor that cannot be loaded records its
   error and leaves everything else; a status query that fails records its
   error after the descriptor's networks were already registered in the shared
   table templates; otherwise the freshly built report is published.
   */
  function Step(s: State, t: Tick): (s': State)
    requires ValidTick(t)
    ensures s'.hostname == s.hostname
    ensures Succeeds(t) ==> GetErr(s').None? && GetReport(s') == BuildReport(s.hostname, t)
    ensures !Succeeds(t) ==> GetErr(s') == Some(TickError(t)) && GetReport(s') == GetReport(s)
    ensures t.spec.Failure? ==> s'.tableTemplates == s.tableTemplates
    ensures t.spec.Success? ==>
      s'.tableTemplates == RegisterNetworkTemplates(s.tableTemplates, t.spec.value, t.order.networks)
  {
    match t.spec
    case Failure(e) => SetErr(s, e)
    case Success(spec) =>
      var tt := RegisterNetworkTemplates(s.tableTemplates, spec, t.order.networks);
      match GetProcesses(t.status)
      case Failure(e) => SetErr(s.(tableTemplates := tt), e)
      case Success(_) => SetReport(s.(tableTemplates := tt), BuildReport(s.hostname, t))
  }

  ghost predicate ValidTicks(ticks: seq<Tick>) {
    forall i :: 0 <= i < |ticks| ==> ValidTick(ticks[i])
  }

  /**
   The refresh loop over a sequence of ticks. The host name never changes, and
   the error afterwards is that of the last tick: none when it succeeded.
   */
  function Run(s: State, ticks: seq<Tick>): (s': State)
    requires ValidTicks(ticks)
    ensures s'.hostname == s.hostname
    ensures |ticks| == 0 ==> s' == s
    ensures |ticks| > 0 && Succeeds(ticks[|ticks| - 1]) ==> GetErr(s').None?
    ensures |ticks| > 0 && !Succeeds(ticks[|ticks| - 1]) ==> GetErr(s') == Some(TickError(ticks[|ticks| - 1]))
    decreases |ticks|
  {
    if |ticks| == 0 then s else Step(Run(s, ticks[..|ticks| - 1]), ticks[|ticks| - 1])
  }

  /** The index of the last successful tick, if any. */
  function LastSuccess(ticks: seq<Tick>): (r: Option<nat>)
    ensures r.Some? ==> r.value < |ticks| && Succeeds(ticks[r.value])
    ensures r.Some? ==> forall j :: r.value < j < |ticks| ==> !Succeeds(ticks[j])
    ensures r.None? ==> forall j :: 0 <= j < |ticks| ==> !Succeeds(ticks[j])
    decreases |ticks|
  {
    if |ticks| == 0 then None
    else if Succeeds(ticks[|ticks| - 1]) then Some(|ticks| - 1)
    else LastSuccess(ticks[..|ticks| - 1])
  }

  /** Ticks that fail after the k-th leave the report the k-th tick built. */
  lemma {:induction false} RunKeepsBuiltReport(s: State, ticks: seq<Tick>, k: nat)
    requires ValidTicks(ticks) && k < |ticks| && Succeeds(ticks[k])
    requires forall j :: k < j < |ticks| ==> !Succeeds(ticks[j])
    ensures GetReport(Run(s, ticks)) == BuildReport(s.hostname, ticks[k])
    decreases |ticks|
  {
    var front := ticks[..|ticks| - 1];
    assert ValidTicks(front);
    if k < |ticks| - 1 {
      assert ticks[k] == front[k];
      RunKeepsBuiltReport(s, front, k);
    }
  }

  /** With no successful tick the plugin still holds the report it started with. */
  lemma {:induction false} RunKeepsInitialReport(s: State, ticks: seq<Tick>)
    requires ValidTicks(ticks)
    requires forall j :: 0 <= j < |ticks| ==> !Succeeds(ticks[j])
    ensures GetReport(Run(s, ticks)) == GetReport(s)
    decreases |ticks|
  {
    if |ticks| > 0 {
      assert ValidTicks(ticks[..|ticks| - 1]);
      RunKeepsInitialReport(s, ticks[..|ticks| - 1]);
    }
  }

  /**
   After a run the plugin holds the report of the last successful tick, or
   the report it started with when no tick succeeded; failing ticks never
   change it. The handler serves that report only when the last tick
   succeeded, or when no tick has run.
   */
  lemma RunServesLastSuccess(s: State, ticks: seq<Tick>)
    requires ValidTicks(ticks)
    ensures LastSuccess(ticks).None? ==> GetReport(Run(s, ticks)) == GetReport(s)
    ensures LastSuccess(ticks).Some? ==>
      GetReport(Run(s, ticks)) == BuildReport(s.hostname, ticks[LastSuccess(ticks).value])
  {
    match LastSuccess(ticks)
    case None => RunKeepsInitialReport(s, ticks);
    case Some(k) => RunKeepsBuiltReport(s, ticks, k);
  }

  /**
   The shared table templates only grow over a run: the static entries stay,
   every entry keeps its template, and only network templates are added.
   */
  lemma {:induction false} RunTemplatesGrow(s: State, ticks: seq<Tick>)
    requires ValidTicks(ticks)
    requires WellFormedTemplates(s.tableTemplates)
    ensures WellFormedTemplates(Run(s, ticks).tableTemplates)
    ensures Extends(s.tableTemplates, Run(s, ticks).tableTemplates)
    decreases |ticks|
  {
    if |ticks| > 0 {
      var front := ticks[..|ticks| - 1];
      var t := ticks[|ticks| - 1];
      assert ValidTicks(front);
      RunTemplatesGrow(s, front);
      var mid := Run(s, front);
      if t.spec.Success? {
        TableTemplatesOnlyGrow(mid.tableTemplates, t.spec.value, t.order.networks);
      }
    }
  }

  /** The HTTP response of the report handler. */
  datatype Response =
    | Encoded(report: Report, tableTemplates: TableTemplates)
    | ServerError(code: nat, message: string)

  const StatusInternalServerError: nat := 500

  /**
   `Report`: a recorded error is answered with status 500 and its message;
   otherwise the report is encoded, together with the shared table templates
   as they are at that moment. An encoding failure (the outcome of the JSON
   encoder, a parameter here) is answered with status 500 as well.
   */
  function Serve(s: State, encodeErr: Option<Error>): (resp: Response)
    ensures resp.ServerError? <==> GetErr(s).Some? || encodeErr.Some?
    ensures GetErr(s).Some? ==> resp == ServerError(StatusInternalServerError, GetErr(s).value.message)
    ensures GetErr(s).None? && encodeErr.Some? ==>
      resp == ServerError(StatusInternalServerError, encodeErr.value.message)
    ensures resp.Encoded? ==> resp.report == GetReport(s) && resp.tableTemplates == s.tableTemplates
  {
    match GetErr(s)
    case Some(e) => ServerError(StatusInternalServerError, e.message)
    case None =>
      match encodeErr
      case Some(e) => ServerError(StatusInternalServerError, e.message)
      case None => Encoded(GetReport(s), s.tableTemplates)
  }

  /**
   After a failing tick the handler answers 500 with that tick's error, even
   though the last good report is still held; after a successful tick it
   serves the fresh report unless encoding fails.
   */
  lemma ServeAfterTick(s: State, t: Tick, encodeErr: Option<Error>)
    requires ValidTick(t)
    ensures !Succeeds(t) ==> Serve(Step(s, t), encodeErr) == ServerError(StatusInternalServerError, TickError(t).message)
    ensures Succeeds(t) && encodeErr.None? ==>
      Serve(Step(s, t), encodeErr) == Encoded(BuildReport(s.hostname, t), Step(s, t).tableTemplates)
  {
  }
}

=== FILE: report.dfy ===
/**
 The report the plugin serves: one host node whose `latest` map carries the
 job descriptor (keys prefixed `bosh_`) and the monit process states (keys
 prefixed `monit_processes_`), plus the table templates that tell the viewer
 how to group those keys.

 Each `latest` entry is kept as its value only; the timestamp beside it is
 wall-clock time and is not modelled. The table templates are one map shared
 by every report of the process, so they are not a field of `Report` here but
 a separate value that only `RegisterNetworkTemplates` changes.
 */
module BoshReport {
  import opened Wrappers
  import opened Strings
  import opened Decimal
  import opened Maps
  import opened BoshSpec
  import opened Monit
  import opened ReportKeys

  /** The largest value `rand.Int63` returns. */
  const MaxInt63: nat := 0x7fff_ffff_ffff_ffff

  datatype PluginSpec = PluginSpec(
    id: string,
    displayLabel: string,
    description: string,
    interfaces: seq<string>,
    apiVersion: string)

  datatype MetadataTemplate = MetadataTemplate(id: string, displayLabel: string, priority: int, from: string, truncate: int)

  datatype TableTemplate = TableTemplate(id: string, displayLabel: string, prefix: string)

  type TableTemplates = map<string, TableTemplate>

  /** A node's `latest` map from key to value. */
  type Latest = map<Key, string>

  datatype Node = Node(id: string, topology: string, latest: Latest)

  datatype HostSpec = HostSpec(
    displayLabel: string,
    displayLabelPlural: string,
    nodes: map<string, Node>,
    shape: string,
    metadataTemplates: map<string, MetadataTemplate>)

  datatype Report = Report(id: string, plugins: seq<PluginSpec>, host: HostSpec, hostname: string)

  const PluginInfo := PluginSpec("bosh", "bosh", "Reports on Bosh agent properties", ["reporter"], "1")

  /** The table templates every report starts with. */
  const StaticTableTemplates: TableTemplates := map[
    BoshJobPrefix := TableTemplate(BoshJobPrefix, "Bosh Job Info", BoshJobPrefix),
    BoshTemplatesPrefix := TableTemplate(BoshTemplatesPrefix, "Bosh Templates", BoshTemplatesPrefix),
    BoshPackagesPrefix := TableTemplate(BoshPackagesPrefix, "Bosh Packages", BoshPackagesPrefix),
    MonitProcessesPrefix := TableTemplate(MonitProcessesPrefix, "Monit Processes", MonitProcessesPrefix)
  ]

  /** The table template a network registers: its keys' common prefix, labelled with its name. */
  function NetworkTemplate(name: string): TableTemplate {
    TableTemplate(NetworkId(name), "Bosh Networks - " + name, NetworkId(name))
  }

  // ---------------------------------------------------------------------------
  // What a node says about a descriptor and about a process list, independently
  // of the order the build visits them in

  /** No later template shares the name of template `i`. */
  ghost predicate LastTemplate(ts: seq<Template>, i: int)
    requires 0 <= i < |ts|
  {
    forall j :: i < j < |ts| ==> ts[j].name != ts[i].name
  }

  /** No later process shares the name of process `i`. */
  ghost predicate LastProcess(ps: seq<Process>, i: int)
    requires 0 <= i < |ps|
  {
    forall j :: i < j < |ps| ==> ps[j].name != ps[i].name
  }

  /** Every template name has a last template of that name. */
  lemma {:induction false} LastTemplateExists(ts: seq<Template>, i: int)
    requires 0 <= i < |ts|
    ensures exists j :: i <= j < |ts| && ts[j].name == ts[i].name && LastTemplate(ts, j)
    decreases |ts| - i
  {
    if !LastTemplate(ts, i) {
      var j :| i < j < |ts| && ts[j].name == ts[i].name;
      LastTemplateExists(ts, j);
    }
  }

  /** Every process name has a last process of that name. */
  lemma {:induction false} LastProcessExists(ps: seq<Process>, i: int)
    requires 0 <= i < |ps|
    ensures exists j :: i <= j < |ps| && ps[j].name == ps[i].name && LastProcess(ps, j)
    decreases |ps| - i
  {
    if !LastProcess(ps, i) {
      var j :| i < j < |ps| && ps[j].name == ps[i].name;
      LastProcessExists(ps, j);
    }
  }

  /** The keys a descriptor puts into the host node. */
  ghost predicate IsSpecKey(spec: Spec, k: Key) {
    match k
    case JobKey(_) => true
    case TemplateKey(name) => exists i :: 0 <= i < |spec.job.templates| && spec.job.templates[i].name == name
    case PackageKey(name) => exists p :: p in spec.packages && spec.packages[p].name == name
    case NetworkKey(name, _) => name in spec.networks
    case ProcessKey(_) => false
  }

  /**
   `latest` holds the descriptor: outside the process family exactly the
   descriptor's keys, the job identity with the index in decimal, each template
   name with the version of the last template of that name, each package name
   (the package's own name, not its map key) with the version of some package
   of that name, and the four attributes of every network.
   */
  ghost predicate DescribesSpec(latest: Latest, spec: Spec) {
    var ts := spec.job.templates;
    && (forall k: Key :: !k.ProcessKey? ==> (k in latest <==> IsSpecKey(spec, k)))
    && (forall f :: JobKey(f) in latest && latest[JobKey(f)] == f.ValueOf(spec))
    && (forall i :: 0 <= i < |ts| && LastTemplate(ts, i) ==>
          TemplateKey(ts[i].name) in latest && latest[TemplateKey(ts[i].name)] == ts[i].version)
    && (forall k: Key :: k in latest && k.PackageKey? ==>
          exists p :: p in spec.packages && spec.packages[p].name == k.pkg && latest[k] == spec.packages[p].version)
    && (forall n, f :: n in spec.networks ==>
          NetworkKey(n, f) in latest && latest[NetworkKey(n, f)] == f.ValueOf(spec.networks[n]))
  }

  /**
   `latest` holds the processes: the keys in the process family are exactly one
   per process name, each with the status of the last process of that name.
   */
  ghost predicate DescribesProcesses(latest: Latest, ps: seq<Process>) {
    && (forall k: Key :: k.ProcessKey? ==> (k in latest <==> exists i :: 0 <= i < |ps| && ps[i].name == k.process))
    && (forall i :: 0 <= i < |ps| && LastProcess(ps, i) ==>
          ProcessKey(ps[i].name) in latest && latest[ProcessKey(ps[i].name)] == ps[i].status)
  }

  /**
   Two maps describing one descriptor agree outside the process family, once
   packages sharing a name share a version (otherwise the map visiting order
   decides which version a package name shows).
   */
  lemma DescribesSpecDetermines(a: Latest, b: Latest, spec: Spec)
    requires PackagesConsistent(spec)
    requires DescribesSpec(a, spec) && DescribesSpec(b, spec)
    ensures forall k: Key :: !k.ProcessKey? ==> (k in a <==> k in b)
    ensures forall k :: k in a && !k.ProcessKey? ==> a[k] == b[k]
  {
    forall k | k in a && !k.ProcessKey? ensures a[k] == b[k] {
      if k.TemplateKey? {
        TemplateValueDetermined(a, b, spec, k.template);
      } else if k.PackageKey? {
        PackageValueDetermined(a, b, spec, k.pkg);
      }
    }
  }

  /** A template name holds the version of its last template, in both maps. */
  lemma TemplateValueDetermined(a: Latest, b: Latest, spec: Spec, name: string)
    requires DescribesSpec(a, spec) && DescribesSpec(b, spec)
    requires TemplateKey(name) in a
    ensures TemplateKey(name) in b && a[TemplateKey(name)] == b[TemplateKey(name)]
  {
    var ts := spec.job.templates;
    assert IsSpecKey(spec, TemplateKey(name));
    var i :| 0 <= i < |ts| && ts[i].name == name;
    LastTemplateExists(ts, i);
  }

  /** A package name holds the version all packages of that name share, in both maps. */
  lemma PackageValueDetermined(a: Latest, b: Latest, spec: Spec, name: string)
    requires PackagesConsistent(spec)
    requires DescribesSpec(a, spec) && DescribesSpec(b, spec)
    requires PackageKey(name) in a
    ensures PackageKey(name) in b && a[PackageKey(name)] == b[PackageKey(name)]
  {
  }

  /** Two maps describing one process list agree on the process family. */
  lemma DescribesProcessesDetermines(a: Latest, b: Latest, ps: seq<Process>)
    requires DescribesProcesses(a, ps) && DescribesProcesses(b, ps)
    ensures forall k: Key :: k.ProcessKey? ==> (k in a <==> k in b)
    ensures forall k :: k in a && k.ProcessKey? ==> a[k] == b[k]
  {
    forall k | k in a && k.ProcessKey? ensures a[k] == b[k] {
      var i :| 0 <= i < |ps| && ps[i].name == k.process;
      LastProcessExists(ps, i);
    }
  }

  /**
   A node's `latest` map is fixed by the descriptor and the process list it
   describes: whatever order built it, there is only one such map.
   */
  lemma LatestDetermined(a: Latest, b: Latest, spec: Spec, ps: seq<Process>)
    requires PackagesConsistent(spec)
    requires DescribesSpec(a, spec) && DescribesProcesses(a, ps)
    requires DescribesSpec(b, spec) && DescribesProcesses(b, ps)
    ensures a == b
  {
    DescribesSpecDetermines(a, b, spec);
    DescribesProcessesDetermines(a, b, ps);
    assert a.Keys == b.Keys;
  }

  // ---------------------------------------------------------------------------
  // Building the report

  /** `hostID`: the node id of the host, the hostname followed by `;<host>`. */
  function HostId(hostname: string): (id: string)
    ensures |id| == |hostname| + 7
    ensures id[..|hostname|] == hostname && id[|hostname|..] == ";<host>"
  {
    hostname + ";<host>"
  }

  /** Distinct hostnames give distinct node ids. */
  lemma HostIdInjective(a: string, b: string)
    requires HostId(a) == HostId(b)
    ensures a == b
  {
    assert a == HostId(a)[..|a|];
    assert b == HostId(b)[..|b|];
  }

  /** `host()`: an empty host topology. */
  function NewHost(): (h: HostSpec)
    ensures h.nodes == map[] && h.metadataTemplates == map[]
    ensures h.displayLabel == "host" && h.displayLabelPlural == "hosts" && h.shape == "circle"
  {
    HostSpec("host", "hosts", map[], "circle", map[])
  }

  /**
   `newReport`: the decimal form of a random non-negative 63-bit id, the bosh
   plugin as the only plugin, and an empty host topology.
   */
  function NewReport(hostname: string, randomId: nat): (r: Report)
    requires randomId <= MaxInt63
    ensures IsDigits(r.id) && Atoi(r.id) == randomId
    ensures r.id[0] == '0' ==> r.id == "0"
    ensures |r.plugins| == 1 && r.plugins[0].id == "bosh" && r.plugins[0] == PluginInfo
    ensures r.host.nodes == map[]
    ensures r.host.displayLabel == "host" && r.host.displayLabelPlural == "hosts" && r.host.shape == "circle"
    ensures r.hostname == hostname
  {
    NatToStringRoundTrip(randomId);
    Report(Itoa(randomId), [PluginInfo], NewHost(), hostname)
  }

  function JobLatest(spec: Spec): Latest {
    map[
      JobKey(Id) := spec.id,
      JobKey(Name) := spec.job.name,
      JobKey(Index) := Itoa(spec.index),
      JobKey(Deployment) := spec.deployment
    ]
  }

  /** The initial map holds each job entry with its descriptor value, and nothing else. */
  lemma JobLatestHolds(spec: Spec, f: JobField)
    ensures forall k :: k in JobLatest(spec) ==> k.JobKey?
    ensures JobKey(f) in JobLatest(spec) && JobLatest(spec)[JobKey(f)] == f.ValueOf(spec)
  {
  }

  /** The writes of the template loop, in slice order. */
  function TemplateWrites(ts: seq<Template>): (w: seq<(Key, string)>)
    ensures |w| == |ts|
    ensures forall i :: 0 <= i < |ts| ==> w[i] == (TemplateKey(ts[i].name), ts[i].version)
  {
    seq(|ts|, i requires 0 <= i < |ts| => (TemplateKey(ts[i].name), ts[i].version))
  }

  /** The writes of the package loop, in the order the map is visited. */
  function PackageWrites(packages: map<string, Pkg>, order: seq<string>): (w: seq<(Key, string)>)
    requires forall i :: 0 <= i < |order| ==> order[i] in packages
    ensures |w| == |order|
    ensures forall i :: 0 <= i < |order| ==>
      w[i] == (PackageKey(packages[order[i]].name), packages[order[i]].version)
  {
    seq(|order|, i requires 0 <= i < |order| => (PackageKey(packages[order[i]].name), packages[order[i]].version))
  }

  /** The four node writes of one network. */
  function AssignNetwork(m: Latest, name: string, n: Network): (r: Latest)
    ensures forall k :: k in r <==> k in m || (k.NetworkKey? && k.network == name)
    ensures forall f :: NetworkKey(name, f) in r && r[NetworkKey(name, f)] == f.ValueOf(n)
    ensures forall k :: k in m && !(k.NetworkKey? && k.network == name) ==> r[k] == m[k]
  {
    NetworkKeysOf(name);
    m[NetworkKey(name, IP) := IP.ValueOf(n)]
     [NetworkKey(name, Gateway) := Gateway.ValueOf(n)]
     [NetworkKey(name, Netmask) := Netmask.ValueOf(n)]
     [NetworkKey(name, Default) := Default.ValueOf(n)]
  }

  /**
   The node writes of the network loop, visiting the networks in `order`. Since
   network keys never collide, every visited network's attributes survive.
   */
  function AssignNetworks(m: Latest, networks: map<string, Network>, order: seq<string>): (r: Latest)
    requires forall i :: 0 <= i < |order| ==> order[i] in networks
    ensures forall k :: k in r <==> k in m || (k.NetworkKey? && k.network in order)
    ensures forall name, f :: name in order ==>
      NetworkKey(name, f) in r && r[NetworkKey(name, f)] == f.ValueOf(networks[name])
    ensures forall k :: k in m && !(k.NetworkKey? && k.network in order) ==> r[k] == m[k]
    decreases |order|
  {
    if |order| == 0 then m
    else
      var front := order[..|order| - 1];
      var last := order[|order| - 1];
      assert forall name :: name in order <==> name in front || name == last;
      AssignNetwork(AssignNetworks(m, networks, front), last, networks[last])
  }

  /** The writes of `setInstanceSpecData` in program order: job identity, then templates, packages and networks. */
  function BuildLatest(spec: Spec, order: RangeOrder): Latest
    requires ValidOrder(spec, order)
  {
    var withTemplates := Assign(JobLatest(spec), TemplateWrites(spec.job.templates));
    var withPackages := Assign(withTemplates, PackageWrites(spec.packages, order.packages));
    AssignNetworks(withPackages, spec.networks, order.networks)
  }

  /** The template loop writes only template keys. */
  lemma TemplateWritesFamily(ts: seq<Template>)
    ensures forall k :: k in Keys(TemplateWrites(ts)) ==> k.TemplateKey?
  {
  }

  /** The package loop writes only package keys. */
  lemma PackageWritesFamily(packages: map<string, Pkg>, order: seq<string>)
    requires forall i :: 0 <= i < |order| ==> order[i] in packages
    ensures forall k :: k in Keys(PackageWrites(packages, order)) ==> k.PackageKey?
  {
  }

  /** The template loop writes one key per template name. */
  lemma TemplateWriteKeys(ts: seq<Template>, k: Key)
    requires k.TemplateKey?
    ensures k in Keys(TemplateWrites(ts)) <==> exists i :: 0 <= i < |ts| && ts[i].name == k.template
  {
  }

  /** The package loop writes one key per package name, whatever the visiting order. */
  lemma PackageWriteKeys(packages: map<string, Pkg>, order: seq<string>, k: Key)
    requires Enumerates(order, packages.Keys)
    requires k.PackageKey?
    ensures k in Keys(PackageWrites(packages, order)) <==> exists p :: p in packages && packages[p].name == k.pkg
  {
  }

  /** The keys after the job and template writes. */
  lemma TemplateStageKeys(spec: Spec)
    ensures forall k :: k in Assign(JobLatest(spec), TemplateWrites(spec.job.templates)) <==>
      k.JobKey? || (k.TemplateKey? && IsSpecKey(spec, k))
  {
    var ts := spec.job.templates;
    forall k ensures k in Assign(JobLatest(spec), TemplateWrites(ts)) <==> k.JobKey? || (k.TemplateKey? && IsSpecKey(spec, k)) {
      TemplateWritesFamily(ts);
      if k.TemplateKey? {
        TemplateWriteKeys(ts, k);
      } else if k.JobKey? {
        JobLatestHolds(spec, k.job);
      }
    }
  }

  /** The package writes add one key per package name. */
  lemma PackageStageKeys(spec: Spec, order: RangeOrder, m: Latest)
    requires ValidOrder(spec, order)
    ensures forall k :: k in Assign(m, PackageWrites(spec.packages, order.packages)) <==>
      k in m || (k.PackageKey? && IsSpecKey(spec, k))
  {
  }

  lemma BuildLatestKeys(spec: Spec, order: RangeOrder)
    requires ValidOrder(spec, order)
    ensures forall k :: k in BuildLatest(spec, order) <==> IsSpecKey(spec, k)
  {
    var m1 := Assign(JobLatest(spec), TemplateWrites(spec.job.templates));
    var m2 := Assign(m1, PackageWrites(spec.packages, order.packages));
    assert forall k :: k in m1 <==> k.JobKey? || (k.TemplateKey? && IsSpecKey(spec, k)) by {
      TemplateStageKeys(spec);
    }
    assert forall k :: k in m2 <==> k in m1 || (k.PackageKey? && IsSpecKey(spec, k)) by {
      PackageStageKeys(spec, order, m1);
    }
    assert forall k :: k in BuildLatest(spec, order) <==> k in m2 || (k.NetworkKey? && k.network in order.networks);
  }

  lemma BuildLatestTemplates(spec: Spec, order: RangeOrder, i: int)
    requires ValidOrder(spec, order)
    requires 0 <= i < |spec.job.templates| && LastTemplate(spec.job.templates, i)
    ensures var k := TemplateKey(spec.job.templates[i].name);
      k in BuildLatest(spec, order) && BuildLatest(spec, order)[k] == spec.job.templates[i].version
  {
    var ts := spec.job.templates;
    var tw := TemplateWrites(ts);
    var m1 := Assign(JobLatest(spec), tw);
    assert IsLast(tw, i);
    AssignLastWrite(JobLatest(spec), tw, i);
    PackageWritesFamily(spec.packages, order.packages);
    assert tw[i].0 !in Keys(PackageWrites(spec.packages, order.packages));
  }

  lemma BuildLatestPackages(spec: Spec, order: RangeOrder, k: Key)
    requires ValidOrder(spec, order)
    requires k.PackageKey? && k in BuildLatest(spec, order)
    ensures exists p :: p in spec.packages && spec.packages[p].name == k.pkg
                     && BuildLatest(spec, order)[k] == spec.packages[p].version
  {
    var tw := TemplateWrites(spec.job.templates);
    var pw := PackageWrites(spec.packages, order.packages);
    var m1 := Assign(JobLatest(spec), tw);
    assert k in Keys(pw) by {
      TemplateWritesFamily(spec.job.templates);
      BuildLatestKeys(spec, order);
      PackageWriteKeys(spec.packages, order.packages, k);
    }
    WrittenValue(m1, pw, k);
    var j :| 0 <= j < |pw| && pw[j].0 == k && Assign(m1, pw)[k] == pw[j].1;
    assert spec.packages[order.packages[j]].name == k.pkg;
  }

  lemma BuildLatestJob(spec: Spec, order: RangeOrder, f: JobField)
    requires ValidOrder(spec, order)
    ensures JobKey(f) in BuildLatest(spec, order) && BuildLatest(spec, order)[JobKey(f)] == f.ValueOf(spec)
  {
    var tw := TemplateWrites(spec.job.templates);
    var pw := PackageWrites(spec.packages, order.packages);
    var m1 := Assign(JobLatest(spec), tw);
    var m2 := Assign(m1, pw);
    JobLatestHolds(spec, f);
    assert JobKey(f) !in Keys(tw) by {
      TemplateWritesFamily(spec.job.templates);
    }
    assert JobKey(f) !in Keys(pw) by {
      PackageWritesFamily(spec.packages, order.packages);
    }
    assert m2[JobKey(f)] == f.ValueOf(spec);
  }

  /** What the descriptor loops build is what `DescribesSpec` demands, for any visiting order. */
  lemma BuildLatestDescribesSpec(spec: Spec, order: RangeOrder)
    requires ValidOrder(spec, order)
    ensures forall k :: k in BuildLatest(spec, order) ==> !k.ProcessKey?
    ensures DescribesSpec(BuildLatest(spec, order), spec)
  {
    var m := BuildLatest(spec, order);
    var ts := spec.job.templates;
    BuildLatestKeys(spec, order);
    forall f ensures JobKey(f) in m && m[JobKey(f)] == f.ValueOf(spec) {
      BuildLatestJob(spec, order, f);
    }
    forall i | 0 <= i < |ts| && LastTemplate(ts, i)
      ensures TemplateKey(ts[i].name) in m && m[TemplateKey(ts[i].name)] == ts[i].version
    {
      BuildLatestTemplates(spec, order, i);
    }
    forall k: Key | k in m && k.PackageKey?
      ensures exists p :: p in spec.packages && spec.packages[p].name == k.pkg && m[k] == spec.packages[p].version
    {
      BuildLatestPackages(spec, order, k);
    }
  }

  /**
   The `latest` map `setInstanceSpecData` builds: for whatever order the
   package and network maps are visited in, it describes the descriptor and
   holds no process key.
   */
  function SpecLatest(spec: Spec, order: RangeOrder): (latest: Latest)
    requires ValidOrder(spec, order)
    ensures forall k :: k in latest ==> !k.ProcessKey?
    ensures DescribesSpec(latest, spec)
  {
    BuildLatestDescribesSpec(spec, order);
    BuildLatest(spec, order)
  }

  /**
   The build does not depend on the order the package and network maps are
   visited in, once packages sharing a name share a version.
   */
  lemma SpecLatestOrderIndependent(spec: Spec, order1: RangeOrder, order2: RangeOrder)
    requires ValidOrder(spec, order1) && ValidOrder(spec, order2)
    requires PackagesConsistent(spec)
    ensures SpecLatest(spec, order1) == SpecLatest(spec, order2)
  {
    var a := SpecLatest(spec, order1);
    var b := SpecLatest(spec, order2);
    assert DescribesProcesses(a, []) && DescribesProcesses(b, []);
    LatestDetermined(a, b, spec, []);
  }

  /**
   `r'` is `r` with the host node put in place: every other field and every
   other node is as it was.
   */
  ghost predicate OnlyHostNodeChanged(r: Report, r': Report) {
    && r'.id == r.id && r'.plugins == r.plugins && r'.hostname == r.hostname
    && r'.host == r.host.(nodes := r'.host.nodes)
    && r'.host.nodes.Keys == r.host.nodes.Keys + {HostId(r.hostname)}
    && (forall id :: id in r.host.nodes && id != HostId(r.hostname) ==> r'.host.nodes[id] == r.host.nodes[id])
  }

  /**
   `setInstanceSpecData`, report side: the node at the host id is replaced by a
   fresh one holding exactly the descriptor, whatever the node held before and
   whatever order the package and network maps are visited in.
   */
  function SetInstanceSpecData(r: Report, spec: Spec, order: RangeOrder): (r': Report)
    requires ValidOrder(spec, order)
    ensures OnlyHostNodeChanged(r, r')
    ensures r'.host.nodes[HostId(r.hostname)].id == HostId(r.hostname)
    ensures r'.host.nodes[HostId(r.hostname)].topology == "host"
    ensures forall k :: k in r'.host.nodes[HostId(r.hostname)].latest ==> !k.ProcessKey?
    ensures DescribesSpec(r'.host.nodes[HostId(r.hostname)].latest, spec)
  {
    var id := HostId(r.hostname);
    var latest := SpecLatest(spec, order);
    r.(host := r.host.(nodes := r.host.nodes[id := Node(id, "host", latest)]))
  }

  // ---------------------------------------------------------------------------
  // The shared table templates

  /** The table template registrations of the network loop, in visiting order. */
  function NetworkTemplateWrites(order: seq<string>): (w: seq<(string, TableTemplate)>)
    ensures |w| == |order|
    ensures forall i :: 0 <= i < |order| ==> w[i] == (NetworkId(order[i]), NetworkTemplate(order[i]))
  {
    seq(|order|, i requires 0 <= i < |order| => (NetworkId(order[i]), NetworkTemplate(order[i])))
  }

  /** The ids of a descriptor's network table templates. */
  function NetworkIds(spec: Spec): set<string> {
    set n | n in spec.networks :: NetworkId(n)
  }

  /**
   `setInstanceSpecData`, shared side: one table template per network, written
   into the map every report shares. Entries of other ids are left alone.
   */
  function RegisterNetworkTemplates(tt: TableTemplates, spec: Spec, networkOrder: seq<string>): (tt': TableTemplates)
    requires Enumerates(networkOrder, spec.networks.Keys)
    ensures tt'.Keys == tt.Keys + NetworkIds(spec)
    ensures forall n :: n in spec.networks ==> tt'[NetworkId(n)] == NetworkTemplate(n)
    ensures forall k :: k in tt && k !in NetworkIds(spec) ==> tt'[k] == tt[k]
  {
    var w := NetworkTemplateWrites(networkOrder);
    assert Functional(w) by {
      forall i, j | 0 <= i < |w| && 0 <= j < |w| && w[i].0 == w[j].0 ensures w[i].1 == w[j].1 {
        NetworkIdInjective(networkOrder[i], networkOrder[j]);
      }
    }
    AssignFunctional(tt, w);
    assert forall n :: n in spec.networks ==> n in networkOrder;
    assert Keys(w) == NetworkIds(spec) by {
      forall k | k in NetworkIds(spec) ensures k in Keys(w) {
        var n :| n in spec.networks && k == NetworkId(n);
        var i :| 0 <= i < |networkOrder| && networkOrder[i] == n;
        assert w[i].0 == k;
      }
    }
    Assign(tt, w)
  }

  /** A network's table template id is none of the static ids. */
  lemma NetworkIdNotStatic(name: string)
    ensures NetworkId(name) !in StaticTableTemplates
  {
    NetworkIdShape(name);
  }

  /** The shared table templates: the four static entries, and otherwise only network entries. */
  ghost predicate WellFormedTemplates(tt: TableTemplates) {
    && (forall k :: k in StaticTableTemplates ==> k in tt && tt[k] == StaticTableTemplates[k])
    && (forall k :: k in tt && k !in StaticTableTemplates ==>
          exists name :: k == NetworkId(name) && tt[k] == NetworkTemplate(name))
  }

  /** `tt'` keeps every entry of `tt` as it was. */
  ghost predicate Extends(tt: TableTemplates, tt': TableTemplates) {
    forall k :: k in tt ==> k in tt' && tt'[k] == tt[k]
  }

  /** A network id already present in well-formed templates holds that network's template. */
  lemma RegisteredNetwork(tt: TableTemplates, name: string)
    requires WellFormedTemplates(tt)
    requires NetworkId(name) in tt
    ensures tt[NetworkId(name)] == NetworkTemplate(name)
  {
    NetworkIdNotStatic(name);
    var other :| NetworkId(name) == NetworkId(other) && tt[NetworkId(name)] == NetworkTemplate(other);
    NetworkIdInjective(name, other);
  }

  /**
   Registering a descriptor's networks only adds to the shared table templates:
   every entry present before stays as it was (a network registered again gets
   the very template it already had), and the four static entries stay.
   */
  lemma TableTemplatesOnlyGrow(tt: TableTemplates, spec: Spec, networkOrder: seq<string>)
    requires Enumerates(networkOrder, spec.networks.Keys)
    requires WellFormedTemplates(tt)
    ensures WellFormedTemplates(RegisterNetworkTemplates(tt, spec, networkOrder))
    ensures Extends(tt, RegisterNetworkTemplates(tt, spec, networkOrder))
  {
    var tt' := RegisterNetworkTemplates(tt, spec, networkOrder);
    forall k | k in tt ensures k in tt' && tt'[k] == tt[k] {
      if k in NetworkIds(spec) {
        var n :| n in spec.networks && k == NetworkId(n);
        RegisteredNetwork(tt, n);
      }
    }
    forall k | k in tt' && k !in StaticTableTemplates
      ensures exists name :: k == NetworkId(name) && tt'[k] == NetworkTemplate(name)
    {
      if k in NetworkIds(spec) {
        var n :| n in spec.networks && k == NetworkId(n);
        assert tt'[k] == NetworkTemplate(n);
      } else {
        assert k in tt;
      }
    }
  }

  /** Registering the same descriptor's networks again, in any order, changes nothing. */
  lemma RegisterNetworkTemplatesIdempotent(tt: TableTemplates, spec: Spec, order1: seq<string>, order2: seq<string>)
    requires Enumerates(order1, spec.networks.Keys) && Enumerates(order2, spec.networks.Keys)
    ensures var once := RegisterNetworkTemplates(tt, spec, order1);
      RegisterNetworkTemplates(once, spec, order2) == once
  {
  }

  // ---------------------------------------------------------------------------
  // The process family

  /** The writes of the process loop, in list order. */
  function ProcessWrites(ps: seq<Process>): (w: seq<(Key, string)>)
    ensures |w| == |ps|
    ensures forall i :: 0 <= i < |ps| ==> w[i] == (ProcessKey(ps[i].name), ps[i].status)
  {
    seq(|ps|, i requires 0 <= i < |ps| => (ProcessKey(ps[i].name), ps[i].status))
  }

  /**
   The delete loop: `latest` without the keys that have the process prefix.
   By `IsProcessKeyRendering` those are exactly the process keys.
   */
  function WithoutProcesses(latest: Latest): (m: Latest)
    ensures forall k :: k in m <==> k in latest && !HasPrefix(k.Render(), MonitProcessesPrefix)
    ensures forall k :: k in m ==> m[k] == latest[k]
  {
    RenderedProcessKeys();
    map k | k in latest && !k.ProcessKey? :: latest[k]
  }

  lemma RenderedProcessKeys()
    ensures forall k: Key :: HasPrefix(k.Render(), MonitProcessesPrefix) <==> k.ProcessKey?
  {
    forall k: Key ensures HasPrefix(k.Render(), MonitProcessesPrefix) <==> k.ProcessKey? {
      IsProcessKeyRendering(k);
    }
  }

  /** Writing the processes into a map without process keys describes exactly those processes. */
  lemma ProcessWritesDescribe(m: Latest, ps: seq<Process>)
    requires forall k :: k in m ==> !k.ProcessKey?
    ensures DescribesProcesses(Assign(m, ProcessWrites(ps)), ps)
  {
    var w := ProcessWrites(ps);
    var r := Assign(m, w);
    forall k: Key | k.ProcessKey? && exists i :: 0 <= i < |ps| && ps[i].name == k.process
      ensures k in r
    {
      var i :| 0 <= i < |ps| && ps[i].name == k.process;
      assert w[i].0 == k;
    }
    forall k: Key | k.ProcessKey? && k in r
      ensures exists i :: 0 <= i < |ps| && ps[i].name == k.process
    {
      var i :| 0 <= i < |w| && w[i].0 == k;
    }
    forall i | 0 <= i < |ps| && LastProcess(ps, i)
      ensures r[ProcessKey(ps[i].name)] == ps[i].status
    {
      assert IsLast(w, i);
      AssignLastWrite(m, w, i);
    }
  }

  /** `after` agrees with `before` on every key outside the process family. */
  ghost predicate SameOutsideProcesses(before: Latest, after: Latest) {
    && (forall k: Key :: !k.ProcessKey? ==> (k in after <==> k in before))
    && (forall k :: k in before && !k.ProcessKey? ==> after[k] == before[k])
  }

  /** Dropping the process family and writing the given processes leaves every other key as it was. */
  lemma ReplaceProcesses(latest: Latest, ps: seq<Process>)
    ensures DescribesProcesses(Assign(WithoutProcesses(latest), ProcessWrites(ps)), ps)
    ensures SameOutsideProcesses(latest, Assign(WithoutProcesses(latest), ProcessWrites(ps)))
  {
    var m := WithoutProcesses(latest);
    RenderedProcessKeys();
    ProcessWritesDescribe(m, ps);
    forall k | k in Keys(ProcessWrites(ps)) ensures k.ProcessKey? {
      var i :| 0 <= i < |ps| && ProcessWrites(ps)[i].0 == k;
    }
  }

  /**
   `setMonitProcesses`: in the host node, every process key is dropped and one
   key per given process written; no other key and no other node changes.
   Without a host node Go reads a zero node with a nil map, which only an
   empty process list survives (a write into a nil map panics).
   */
  function SetMonitProcesses(r: Report, ps: seq<Process>): (r': Report)
    requires HostId(r.hostname) in r.host.nodes || |ps| == 0
    ensures OnlyHostNodeChanged(r, r')
    ensures DescribesProcesses(r'.host.nodes[HostId(r.hostname)].latest, ps)
    ensures HostId(r.hostname) in r.host.nodes ==>
      var before := r.host.nodes[HostId(r.hostname)];
      var after := r'.host.nodes[HostId(r.hostname)];
      after.id == before.id && after.topology == before.topology && SameOutsideProcesses(before.latest, after.latest)
  {
    var id := HostId(r.hostname);
    var node := if id in r.host.nodes then r.host.nodes[id] else Node("", "", map[]);
    var after := Assign(WithoutProcesses(node.latest), ProcessWrites(ps));
    assert DescribesProcesses(after, ps) && SameOutsideProcesses(node.latest, after) by {
      ReplaceProcesses(node.latest, ps);
    }
    r.(host := r.host.(nodes := r.host.nodes[id := node.(latest := after)]))
  }

  /** Writing processes does not change what lies outside the process family. */
  lemma WithoutProcessesAfterWrites(latest: Latest, ps: seq<Process>)
    ensures WithoutProcesses(Assign(WithoutProcesses(latest), ProcessWrites(ps))) == WithoutProcesses(latest)
  {
  }

  /** Setting the processes again replaces the earlier ones: only the last list counts. */
  lemma SetMonitProcessesReplaces(r: Report, ps1: seq<Process>, ps2: seq<Process>)
    requires HostId(r.hostname) in r.host.nodes
    ensures SetMonitProcesses(SetMonitProcesses(r, ps1), ps2) == SetMonitProcesses(r, ps2)
  {
    var node := r.host.nodes[HostId(r.hostname)];
    WithoutProcessesAfterWrites(node.latest, ps1);
  }
}

=== FILE: strings.dfy ===
/** The few functions of Go's `strings` package the core relies on. */
module Strings {
  import opened Wrappers

  /** `strings.HasPrefix`. */
  predicate HasPrefix(s: string, prefix: string) {
    |prefix| <= |s| && s[..|prefix|] == prefix
  }

  /** The position of the first `c` in `s`, the search `strings.SplitN` performs. */
  function IndexOf(s: string, c: char): (r: Option<nat>)
    ensures r.None? <==> c !in s
    ensures r.Some? ==> r.value < |s| && s[r.value] == c && c !in s[..r.value]
  {
    if |s| == 0 then None
    else if s[0] == c then Some(0)
    else
      match IndexOf(s[1..], c)
      case None => None
      case Some(i) =>
        assert s[1..][..i] == s[1..i + 1];
        assert s[..i + 1] == [s[0]] + s[1..i + 1];
        Some(i + 1)
  }

  /** The summed length of the parts. */
  function TotalLength(parts: seq<string>): nat
    decreases |parts|
  {
    if |parts| == 0 then 0 else |parts[0]| + TotalLength(parts[1..])
  }

  /** `strings.Join`: the parts with `sep` between neighbours. */
  function Join(parts: seq<string>, sep: string): string
    decreases |parts|
  {
    if |parts| == 0 then ""
    else if |parts| == 1 then parts[0]
    else parts[0] + sep + Join(parts[1..], sep)
  }

  /**
   A join starts with the first part, ends with the last, and is as long as
   the parts plus one separator between each neighbouring pair.
   */
  lemma {:induction false} JoinShape(parts: seq<string>, sep: string)
    ensures |parts| == 0 ==> Join(parts, sep) == ""
    ensures |parts| > 0 ==> |Join(parts, sep)| == TotalLength(parts) + (|parts| - 1) * |sep|
    ensures |parts| > 0 ==> Join(parts, sep)[..|parts[0]|] == parts[0]
    ensures |parts| > 0 ==>
      && |parts[|parts| - 1]| <= |Join(parts, sep)|
      && Join(parts, sep)[|Join(parts, sep)| - |parts[|parts| - 1]|..] == parts[|parts| - 1]
    decreases |parts|
  {
    if |parts| > 1 {
      var rest := parts[1..];
      JoinShape(rest, sep);
      var r := Join(parts, sep);
      var tail := Join(rest, sep);
      assert r == parts[0] + sep + tail;
      assert rest[|rest| - 1] == parts[|parts| - 1];
      assert r[|r| - |tail|..] == tail;
    }
  }

  /**
   Appending a part to a non-empty join adds the separator and then the part:
   a description of `Join` from the right, whereas its definition adds parts
   at the front.
   */
  lemma {:induction false} JoinSnoc(parts: seq<string>, p: string, sep: string)
    requires |parts| > 0
    ensures Join(parts + [p], sep) == Join(parts, sep) + sep + p
    decreases |parts|
  {
    var all := parts + [p];
    if |parts| == 1 {
      assert all[1..] == [p];
    } else {
      assert all[1..] == parts[1..] + [p];
      JoinSnoc(parts[1..], p, sep);
    }
  }

  /** Prefixing is injective: `p + x` determines `x`. */
  lemma PrefixCancel(p: string, x: string, y: string)
    requires p + x == p + y
    ensures x == y
  {
    assert x == (p + x)[|p|..];
    assert y == (p + y)[|p|..];
  }
}

=== FILE: wrappers.dfy ===
/** Failure-carrying datatypes shared by every module of the model. */
module Wrappers {

  /** A value that may be absent; also stands for a nilable Go `error`. */
  datatype Option<+T> = None | Some(value: T)

  /** A Go `error`, kept as the text its `Error()` method returns. */
  datatype Error = Error(message: string)

  /** The `(value, error)` pair a Go function returns, with exactly one side meaningful. */
  datatype Result<+R> = Success(value: R) | Failure(error: Error)
}
